=== FILE: README.md ===
# Dwntwna chat: conversation controller and completion proxy

A Dafny model of the two pieces of decision logic in the Dwntwna travel chat
widget:

- the **conversation controller** (`src/components/DwntwnaChat.tsx`), a React
  component whose state is a transcript, the input text, the selected
  language, an in-flight flag and whether the language-selection screen is
  showing. Its transitions are language selection, the globe button, typing,
  submit (guard, user turn, request) and completion (one assistant turn,
  loading cleared). Each is a pure step function over an immutable `State`;
  the network is an input (`FetchOutcome`);
- the **completion proxy** (`supabase/functions/chat/index.ts`), a stateless
  handler. It answers CORS preflight at once, rejects a missing API key,
  maps the language code to a language name, drops client `system` messages,
  prepends its own system prompt, picks the reply from the provider's first
  choice and collapses every failure into a 500 with a fixed reply. The API
  key and the provider's outcome are inputs, and the handler returns the
  provider call it made (if any) beside its response.

Modules: `Wrappers` (Option), `Http` (the 2xx test both ends use), `Text` (JavaScript `trim`), `Messages` (roles,
messages, the system-message filter both ends use), `Controller`, `Session`
(the widget driven by UI events, and the transcript shape every run keeps),
`Proxy`, and `EndToEnd` (facts that tie the two files together).

`Session` drives the widget by user-interface events, and `Session.Enabled`
says which of them the rendered screen lets through. The selection screen
offers only the six table languages (`src/components/DwntwnaChat.tsx` lines
147-152). The chat screen offers the globe button (196-203), the input box,
disabled while a request is loading (252-256), and the submit button,
disabled while loading or while the input trims to nothing (259-261). A
fetch settles only while one is in flight.

Two behaviours of the code shape the model:

- The globe button only re-shows the selector (`OpenSelector`,
  `src/components/DwntwnaChat.tsx` line 199); the transcript is kept until a
  language is then chosen, which always replaces it with the two seed
  messages (`SelectLanguage`, line 63).
- Because the globe button stays enabled while a request is in flight, a
  language can be chosen mid-request. The late reply is then appended after
  the new greeting. So the transcript does not strictly alternate user and
  assistant turns. `Session.Coherent` states the shape that does hold: one
  leading language note, and every user turn answered by the next entry
  unless it is still in flight.

## Model

| member | source | states |
|---|---|---|
| Text.Trim | src/components/DwntwnaChat.tsx:68 | `trim()` yields a piece of the input preceded and followed in it only by whitespace, with no whitespace at either of its own ends. It is empty exactly when the input is whitespace only, which is what makes the submit guard reject blank input |
| Messages.NonSystem | supabase/functions/chat/index.ts:54-59 | the filter's result contains no system message and is no longer than its input |
| Messages.NonSystemMembers | supabase/functions/chat/index.ts:55 | the filter's result contains only messages of the input, and every non-system message of the input is in it |
| Messages.KeptIndices | supabase/functions/chat/index.ts:55 | the positions a `role !== 'system'` filter keeps: strictly increasing, each a non-system message, and every non-system position present |
| Messages.NonSystemKeepsOrder | supabase/functions/chat/index.ts:54-59 | entry k of the filtered list is the message at the k-th kept position, unchanged, so role, content and relative order are preserved |
| Messages.NonSystemAppend | src/components/DwntwnaChat.tsx:211 | filtering distributes over concatenation, so appending turns to the transcript appends their visible part to the displayed list |
| Messages.NonSystemOfSystemFree | supabase/functions/chat/index.ts:54-59 | a list with no system message passes the filter unchanged |
| Messages.CountRole | supabase/functions/chat/index.ts:62-65 | the count of messages with a role is at most the length, and zero exactly when no message has that role |
| Messages.NonSystemLength | supabase/functions/chat/index.ts:54-59 | the filtered length is the input length minus the number of system messages |
| Controller.LanguageNote | src/components/DwntwnaChat.tsx:51-55 | the seeded note is a system message whose content embeds the chosen language's name |
| Controller.SelectLanguage | src/components/DwntwnaChat.tsx:47-63 | whatever the transcript held, it becomes exactly two messages: the system note naming the language, then an assistant turn equal to that language's greeting. The language is recorded, the selector hidden, input and loading untouched |
| Controller.OpenSelector | src/components/DwntwnaChat.tsx:199 | the globe button shows the selector and changes neither the transcript, the selected language, the input nor the loading flag |
| Controller.EditInput | src/components/DwntwnaChat.tsx:254 | typing replaces the input text and nothing else |
| Controller.Submit | src/components/DwntwnaChat.tsx:66-91 | no request is made exactly when the input is whitespace only or a request is loading, and then the state is unchanged. Otherwise one user turn with the untrimmed input is appended, the input cleared and loading set. The request carries the prior transcript plus that turn, with the selected code, or `en` when none is selected |
| Controller.RequestLanguage | src/components/DwntwnaChat.tsx:89 | the language sent is never empty: the selected code when a language with a non-empty code is selected, otherwise `en` |
| Controller.ReplyContent | src/components/DwntwnaChat.tsx:93-113 | the assistant text is never empty. Any transport error, non-ok status or unparseable body gives the technical-difficulty text. An ok response gives `reply` when it is present and non-empty, else the apology |
| Controller.Complete | src/components/DwntwnaChat.tsx:97-116 | exactly one assistant turn is appended, earlier turns are unchanged, and loading ends false on success and failure alike |
| Controller.Displayed | src/components/DwntwnaChat.tsx:211 | the rendered list holds no system message, only messages of the transcript, and every non-system message of it |
| Controller.DisplayAfterSelect | src/components/DwntwnaChat.tsx:211 | after choosing a language the chat screen shows only the greeting |
| Controller.DisplayAfterSubmit | src/components/DwntwnaChat.tsx:76 | an accepted submit adds the user turn at the bottom of the displayed list |
| Controller.DisplayAfterComplete | src/components/DwntwnaChat.tsx:105 | a completion adds the assistant turn at the bottom of the displayed list |
| Session.SendAccepted | src/components/DwntwnaChat.tsx:259-261 | on the chat screen the submit button is enabled exactly when the handler's guard (line 68) accepts the submit, so the guard never refuses a submit the screen lets through |
| Session.ChooseCoherent | src/components/DwntwnaChat.tsx:147-152 | choosing a table language from any state yields a coherent transcript |
| Session.SendCoherent | src/components/DwntwnaChat.tsx:251 | submitting from the chat screen keeps the transcript coherent |
| Session.AppendCoherent | src/components/DwntwnaChat.tsx:76 | appending one non-system turn keeps the leading note, the absence of other system messages and the answered-user-turn property |
| Session.ArriveCoherent | src/components/DwntwnaChat.tsx:105 | a settling fetch keeps the transcript coherent |
| Session.StepCoherent | src/components/DwntwnaChat.tsx:119-269 | every event the rendered screen offers preserves coherence |
| Session.RunCoherent | src/components/DwntwnaChat.tsx:119-269 | every sequence of events from a coherent state ends in a coherent state |
| Session.SessionCoherent | src/components/DwntwnaChat.tsx:32-36 | from the initial state, after any events, the transcript is coherent. Once a language is chosen, the displayed list is the transcript minus its leading note |
| Session.DisplayOfCoherent | src/components/DwntwnaChat.tsx:211 | in a coherent transcript with a chosen language, the rendered list is everything after the first entry |
| Session.KeepShapeCoherent | src/components/DwntwnaChat.tsx:199 | a step that keeps transcript, language and loading flag (the globe button, typing) keeps the transcript coherent |
| Session.OneRequestInFlight | src/components/DwntwnaChat.tsx:68 | once a request is loading, no sequence of events other than its settling can end the loading or get a second request issued |
| Proxy.LanguageName | supabase/functions/chat/index.ts:48 | `en`, `ar`, `hi`, `ur`, `zh`, `ru` map to English, Arabic, Hindi, Urdu, Chinese, Russian; every other code maps to English |
| Proxy.SystemPrompt | supabase/functions/chat/index.ts:34-51 | the generated prompt is a system message containing "Always respond in <name>." |
| Proxy.ProviderMessages | supabase/functions/chat/index.ts:53-65 | the provider list has the generated prompt at index 0 and the filtered client messages after it. It holds exactly one system message, and its length is 1 plus the number of non-system input messages |
| Proxy.ExtractReply | supabase/functions/chat/index.ts:92 | the reply is never empty: the first choice's message content when present and non-empty, otherwise the apology |
| Proxy.Handle | supabase/functions/chat/index.ts:19-111 | OPTIONS gets an empty 200 with no provider call whatever the body. The provider is called exactly when the body parsed, a non-empty key is configured and `messages` is an array. A missing key fails before any call, whatever `messages` holds; with a key, a malformed `messages` fails at the filter. The status is 200 with the extracted reply exactly when the provider answered ok with parseable JSON. Every other request gets 500 with the technical-difficulty reply |
| Proxy.HandleForwards | supabase/functions/chat/index.ts:62-81 | the provider is sent the generated prompt followed by the client's non-system messages in order |
| EndToEnd.ClientLanguagesKnownToProxy | src/components/DwntwnaChat.tsx:22-29 | the six codes on the selection screen are distinct, and each is one of the six codes the proxy's mapping (index.ts line 48) lists explicitly |
| EndToEnd.ShownReplyIsProxyReply | src/components/DwntwnaChat.tsx:97-113 | for any proxy answer to a posted request, the widget's assistant text equals the proxy's `reply` field: the two files' canned texts coincide on both the apology and the failure path |
| EndToEnd.TurnTranscript | src/components/DwntwnaChat.tsx:66-116 | a full turn through widget and proxy appends exactly the user turn and the proxy's reply, clears the input and ends not loading |
| EndToEnd.ChosenLanguageKnown | src/components/DwntwnaChat.tsx:89 | the chosen language's code is what the widget sends, and the proxy maps it by its table rather than by the default |
| EndToEnd.SubmittedFromChat | src/components/DwntwnaChat.tsx:87-90 | a request sent from the chat screen carries the chosen code, and its non-system part is the displayed conversation plus the new user turn |
| EndToEnd.TurnForwarded | supabase/functions/chat/index.ts:54-65 | in a turn from the chat screen, the provider gets the proxy's prompt in the chosen language's English name, then exactly what the user sees plus the new turn. The widget's language note is never forwarded |

## Left out

- Rendering, styling, icons, auto-scroll and `toLocaleTimeString`: UI only.
- Message timestamps (`new Date()`): no decision depends on them, and the proxy drops them; `Message` has role and content only.
- Real `fetch`, `response.json()`, `req.json()`, Deno `serve`, `Deno.env.get` and `console` logging: I/O. Their results are inputs (`FetchOutcome`, `HttpRequest.body`, `apiKey`, `ProviderOutcome`), with `None` standing for a body that failed to parse.
- CORS header values: constants attached to every proxy response.
- The model identifier and `temperature: 0.7` sent to the provider: pass-through constants. `max_tokens: 1000` is kept.
- Proxy.Handle: the `error` field is an abstract `Failure` cause rather than the exception's message text. A throw from `response.text()` on the non-ok path is folded into `ProviderStatus`, since it takes the same 500 path.
- React's asynchronous state batching and the stale `messages` closure in `handleSubmit`: submit and completion are sequential steps, so the closure's transcript is the current one.
- JavaScript strings are UTF-16 while Dafny's are sequences of Unicode scalar values. `trim` is modelled over the ECMAScript whitespace and line-terminator code points. Lone surrogates cannot be represented.
- Message roles are the three the TypeScript types declare and content is a string. The proxy's `role !== 'system'` test would forward any other role (`tool`, `System`) unchanged; the model has no such roles. Anything in `messages` that is not an array is one case, `MalformedMessages`, reached after the key check.
- A widget response body that parses to JSON `null` makes `data.reply` throw; it is folded into `json == None`, which takes the same technical-difficulty path.
- The widget posts to the relative URL `/api/chat` (`src/components/DwntwnaChat.tsx` lines 81-82), and the repository configures no route from it to the proxy function. The `EndToEnd` facts hold on the assumption that such a route exists and passes the JSON through unchanged.
- A `language` field that is absent or not a string is modelled as a string that matches no code, so it gets English as the code does.
- `src/lib/chatApi.ts` (a fetch wrapper whose shapes duplicate the modelled ones), `src/chat-ui.tsx` (DOM mount) and `vite.config.ts` (build configuration).

=== FILE: controller.dfy ===
/** The conversation controller of the chat widget
    (src/components/DwntwnaChat.tsx): the static language table, the
    widget's state, and its transitions as pure step functions. The network
    round trip is an input: a submit produces the request, and a separate
    completion step consumes the fetch outcome. */
module Controller {
  import opened Wrappers
  import opened Text
  import opened Messages
  import opened Http

  datatype Language = Language(code: string, name: string, flag: string, greeting: string)

  /** The six languages offered on the selection screen. */
  const Languages: seq<Language> := [
    Language("en", "English", "🇬🇧", "Welcome to Dwntwna! I'm your AI travel assistant for Downtown Dubai."),
    Language("ar", "العربية", "🇦🇪", "مرحباً بكم في دونتانا! أنا مساعدكم الذكي للسفر في وسط دبي."),
    Language("hi", "हिंदी", "🇮🇳", "डाउनटाउन दुबई में आपका स्वागत है! मैं आपका AI यात्रा सहायक हूं।"),
    Language("ur", "اردو", "🇵🇰", "ڈاؤن ٹاؤن دبئی میں خوش آمدید! میں آپ کا AI سفری معاون ہوں۔"),
    Language("zh", "中文", "🇨🇳", "欢迎来到迪拜市中心！我是您的AI旅行助手。"),
    Language("ru", "Русский", "🇷🇺", "Добро пожаловать в центр Дубая! Я ваш AI помощник по путешествиям.")
  ]

  /** Assistant text when the proxy answered without a usable `reply`. */
  const Apology: string := "I apologize, but I'm having trouble responding right now. Please try again."

  /** Assistant text for every failed round trip. */
  const TechnicalDifficulty: string := "I'm sorry, I'm experiencing technical difficulties. Please try again later."

  /** Language code sent when no language has been selected. */
  const DefaultLanguageCode: string := "en"

  /** The widget's React state: transcript, input box, chosen language,
      in-flight flag, and whether the selection screen is showing. */
  datatype State = State(
    messages: seq<Message>,
    input: string,
    selected: Option<Language>,
    loading: bool,
    showSelector: bool)

  const Initial: State := State([], "", None, false, true)

  /** The JSON body posted to `/api/chat`. */
  datatype ChatRequest = ChatRequest(messages: seq<Message>, language: string)

  /** The parsed JSON of a proxy response, as far as the widget reads it. */
  datatype ReplyJson = ReplyJson(reply: Option<string>)

  /** What `fetch` delivered: a thrown transport error, or a response with a
      status and a body that parsed to an object (`Some`). `None` stands for
      a body on which `response.json()` rejects, and for the JSON `null`, on
      which reading `data.reply` throws; both reach the `catch` block. */
  datatype FetchOutcome = NetworkError | Responded(status: int, json: Option<ReplyJson>)

  /** The outcomes that reach the `catch` block. */
  predicate Fails(outcome: FetchOutcome) {
    outcome.NetworkError? || !IsOk(outcome.status) || outcome.json.None?
  }

  /** The system message that carries the language choice. */
  function LanguageNote(lang: Language): (m: Message)
    ensures m.role == System
    ensures IsInfix(lang.name, m.content)
  {
    var c := "User selected " + lang.name + " as their preferred language. Always respond in "
      + lang.name + " unless they specifically ask for another language.";
    assert OccursAt(lang.name, c, 14);
    Message(System, c)
  }

  /** `handleLanguageSelect`: whatever the transcript held, it becomes the
      language note followed by the language's greeting. */
  function SelectLanguage(st: State, lang: Language): (st': State)
    ensures |st'.messages| == 2
    ensures st'.messages[0].role == System && IsInfix(lang.name, st'.messages[0].content)
    ensures st'.messages[0] == LanguageNote(lang)
    ensures st'.messages[1] == Message(Assistant, lang.greeting)
    ensures st'.selected == Some(lang) && !st'.showSelector
    ensures st'.input == st.input && st'.loading == st.loading
  {
    st.(selected := Some(lang), showSelector := false,
        messages := [LanguageNote(lang), Message(Assistant, lang.greeting)])
  }

  /** The globe button: shows the selection screen and nothing else. */
  function OpenSelector(st: State): (st': State)
    ensures st'.showSelector
    ensures st'.messages == st.messages && st'.selected == st.selected
    ensures st'.input == st.input && st'.loading == st.loading
  {
    st.(showSelector := true)
  }

  /** The input box's `onChange`. */
  function EditInput(st: State, text: string): (st': State)
    ensures st'.input == text
    ensures st'.messages == st.messages && st'.selected == st.selected
    ensures st'.loading == st.loading && st'.showSelector == st.showSelector
  {
    st.(input := text)
  }

  /** `selectedLanguage?.code || 'en'`: the selected code, unless there is
      none or it is empty, in which case the default; never empty. */
  function RequestLanguage(selected: Option<Language>): (code: string)
    ensures code != ""
    ensures selected.Some? && selected.value.code != "" ==> code == selected.value.code
    ensures selected.None? || selected.value.code == "" ==> code == DefaultLanguageCode
  {
    if selected.Some? && selected.value.code != "" then selected.value.code else DefaultLanguageCode
  }

  datatype Submitted = Submitted(state: State, request: Option<ChatRequest>)

  /** The synchronous part of `handleSubmit`: the guard, the user turn, and
      the request that is sent. */
  function Submit(st: State): (out: Submitted)
    ensures out.request.None? <==> AllWhitespace(st.input) || st.loading
    ensures out.request.None? ==> out.state == st
    ensures out.request.Some? ==>
      && out.state.messages == st.messages + [Message(User, st.input)]
      && out.state.input == "" && out.state.loading
      && out.state.selected == st.selected && out.state.showSelector == st.showSelector
    ensures out.request.Some? ==> out.request.value.messages == st.messages + [Message(User, st.input)]
    ensures out.request.Some? && (st.selected.None? || st.selected.value.code == "") ==>
      out.request.value.language == DefaultLanguageCode
    ensures out.request.Some? && st.selected.Some? && st.selected.value.code != "" ==>
      out.request.value.language == st.selected.value.code
  {
    if Trim(st.input) == "" || st.loading then
      Submitted(st, None)
    else
      var user := Message(User, st.input);
      Submitted(st.(messages := st.messages + [user], input := "", loading := true),
                Some(ChatRequest(st.messages + [user], RequestLanguage(st.selected))))
  }

  /** The content of the assistant turn a fetch outcome produces. */
  function ReplyContent(outcome: FetchOutcome): (c: string)
    ensures c != ""
    ensures Fails(outcome) ==> c == TechnicalDifficulty
    ensures !Fails(outcome) ==>
      var reply := outcome.json.value.reply;
      c == if reply.Some? && reply.value != "" then reply.value else Apology
  {
    match outcome
    case NetworkError => TechnicalDifficulty
    case Responded(status, json) =>
      if !IsOk(status) then TechnicalDifficulty
      else if json.None? then TechnicalDifficulty
      else if json.value.reply.None? || json.value.reply.value == "" then Apology
      else json.value.reply.value
  }

  /** The asynchronous part of `handleSubmit`: exactly one assistant turn is
      appended, earlier turns are untouched, and the in-flight flag ends
      false whatever happened. */
  function Complete(st: State, outcome: FetchOutcome): (st': State)
    ensures |st'.messages| == |st.messages| + 1
    ensures st'.messages[..|st.messages|] == st.messages
    ensures st'.messages[|st.messages|] == Message(Assistant, ReplyContent(outcome))
    ensures !st'.loading
    ensures st'.input == st.input && st'.selected == st.selected && st'.showSelector == st.showSelector
  {
    st.(messages := st.messages + [Message(Assistant, ReplyContent(outcome))], loading := false)
  }

  /** The list the chat screen renders: no system message, and every other
      transcript entry. */
  function Displayed(st: State): (d: seq<Message>)
    ensures SystemFree(d)
    ensures forall m :: m in d ==> m in st.messages
    ensures forall i :: 0 <= i < |st.messages| && st.messages[i].role != System ==> st.messages[i] in d
  {
    NonSystemMembers(st.messages);
    NonSystem(st.messages)
  }

  /** After a language is chosen the screen shows the greeting alone. */
  lemma DisplayAfterSelect(st: State, lang: Language)
    ensures Displayed(SelectLanguage(st, lang)) == [Message(Assistant, lang.greeting)]
  {
    var ms := SelectLanguage(st, lang).messages;
    assert ms == [ms[0]] + [ms[1]];
    NonSystemAppend([ms[0]], [ms[1]]);
    assert NonSystem([ms[0]]) == NonSystem([]);
  }

  /** An accepted submit adds the user turn to the bottom of the screen. */
  lemma DisplayAfterSubmit(st: State)
    requires !AllWhitespace(st.input) && !st.loading
    ensures Displayed(Submit(st).state) == Displayed(st) + [Message(User, st.input)]
  {
    NonSystemAppend(st.messages, [Message(User, st.input)]);
  }

  /** A completion adds the assistant turn to the bottom of the screen. */
  lemma DisplayAfterComplete(st: State, outcome: FetchOutcome)
    ensures Displayed(Complete(st, outcome)) == Displayed(st) + [Message(Assistant, ReplyContent(outcome))]
  {
    NonSystemAppend(st.messages, [Message(Assistant, ReplyContent(outcome))]);
  }
}

=== FILE: endtoend.dfy ===
/** Facts that tie the widget (src/components/DwntwnaChat.tsx) to the proxy
    (supabase/functions/chat/index.ts): the language codes agree, the
    canned texts agree, and one full turn through both ends up with the
    proxy's `reply` in the transcript. */
module EndToEnd {
  import opened Wrappers
  import opened Text
  import opened Messages
  import Controller
  import Session
  import Proxy

  /** Every code on the widget's selection screen is one the proxy knows, so
      no offered language silently falls back to English; the codes on the
      screen are also pairwise distinct. */
  lemma ClientLanguagesKnownToProxy()
    ensures forall l :: l in Controller.Languages ==> l.code in Proxy.LanguageNames
    ensures forall i, j :: 0 <= i < j < |Controller.Languages| ==>
      Controller.Languages[i].code != Controller.Languages[j].code
    ensures |Controller.Languages| == |Proxy.LanguageNames|
  {
    var ls := Controller.Languages;
    assert ls[0].code == "en" && ls[1].code == "ar" && ls[2].code == "hi";
    assert ls[3].code == "ur" && ls[4].code == "zh" && ls[5].code == "ru";
    assert Proxy.LanguageNames.Keys == {"en", "ar", "hi", "ur", "zh", "ru"};
  }

  /** The request as the proxy receives it, assuming the widget's relative
      `/api/chat` URL is routed to the proxy function (the repository itself
      configures no such route); the JSON round trip is lossless. */
  function Post(req: Controller.ChatRequest): Proxy.HttpRequest {
    Proxy.HttpRequest("POST", Some(Proxy.ChatRequest(Some(req.messages), req.language)))
  }

  /** What the widget's `fetch` sees of a proxy response. An empty body makes
      `response.json()` throw. */
  function Receive(resp: Proxy.HttpResponse): Controller.FetchOutcome {
    match resp.body
    case NoBody => Controller.Responded(resp.status, None)
    case ReplyBody(reply) => Controller.Responded(resp.status, Some(Controller.ReplyJson(Some(reply))))
    case ErrorBody(reply, _) => Controller.Responded(resp.status, Some(Controller.ReplyJson(Some(reply))))
  }

  /** For any answer to a posted request, the assistant turn the widget adds
      is exactly the proxy's `reply`: on success both sides fall back to
      the same apology, and on failure the widget's own canned text equals
      the proxy's. */
  lemma ShownReplyIsProxyReply(req: Proxy.HttpRequest, apiKey: Option<string>, provider: Proxy.ProviderOutcome)
    requires req.verb != "OPTIONS"
    ensures var resp := Proxy.Handle(req, apiKey, provider).response;
      !resp.body.NoBody? && Controller.ReplyContent(Receive(resp)) == resp.body.reply
  {
  }

  /** One whole turn: an accepted submit, the proxy's handling of the posted
      request, and the completion with what came back. The transcript gains
      the user turn and the proxy's reply and nothing else. */
  lemma TurnTranscript(st: Controller.State, apiKey: Option<string>, provider: Proxy.ProviderOutcome)
    requires !AllWhitespace(st.input) && !st.loading
    ensures var sent := Controller.Submit(st);
      var ex := Proxy.Handle(Post(sent.request.value), apiKey, provider);
      var st' := Controller.Complete(sent.state, Receive(ex.response));
      && st'.messages == st.messages + [Message(User, st.input), Message(Assistant, ex.response.body.reply)]
      && !st'.loading && st'.input == ""
  {
    var sent := Controller.Submit(st);
    var user := Message(User, st.input);
    var req := Post(sent.request.value);
    var ex := Proxy.Handle(req, apiKey, provider);
    ShownReplyIsProxyReply(req, apiKey, provider);
    var st' := Controller.Complete(sent.state, Receive(ex.response));
    calc {
      st'.messages;
      sent.state.messages + [Message(Assistant, Controller.ReplyContent(Receive(ex.response)))];
      st.messages + [user] + [Message(Assistant, ex.response.body.reply)];
      st.messages + [user, Message(Assistant, ex.response.body.reply)];
    }
  }

  /** A language chosen on the selection screen is one the proxy knows, and
      its code is what the widget sends. */
  lemma ChosenLanguageKnown(st: Controller.State)
    requires Session.Coherent(st) && st.selected.Some?
    ensures st.selected.value.code in Proxy.LanguageNames
    ensures Proxy.LanguageName(st.selected.value.code) == Proxy.LanguageNames[st.selected.value.code]
    ensures Controller.RequestLanguage(st.selected) == st.selected.value.code
  {
    ClientLanguagesKnownToProxy();
  }

  /** What an accepted submit from the chat screen sends: the chosen code,
      and a transcript whose non-system part is what the user sees plus the
      new user turn. */
  lemma SubmittedFromChat(st: Controller.State)
    requires Session.Coherent(st) && !st.showSelector
    requires !AllWhitespace(st.input) && !st.loading
    ensures st.selected.Some?
    ensures Controller.Submit(st).request.value.language == st.selected.value.code
    ensures NonSystem(Controller.Submit(st).request.value.messages)
      == Controller.Displayed(st) + [Message(User, st.input)]
  {
    ChosenLanguageKnown(st);
    var user := Message(User, st.input);
    Session.DisplayOfCoherent(st);
    NonSystemAppend(st.messages, [user]);
    NonSystemOfSystemFree([user]);
  }

  /** In a turn taken from the chat screen, the provider is sent the proxy's
      prompt in the chosen language's English name, followed by exactly the
      conversation the user sees and the new user turn; the widget's own
      language note is never forwarded. */
  lemma TurnForwarded(st: Controller.State, apiKey: Option<string>, provider: Proxy.ProviderOutcome)
    requires Session.Coherent(st) && !st.showSelector
    requires !AllWhitespace(st.input) && !st.loading
    ensures st.selected.Some?
    ensures var ex := Proxy.Handle(Post(Controller.Submit(st).request.value), apiKey, provider);
      ex.call.Some? ==>
        ex.call.value.messages ==
          [Proxy.SystemPrompt(Proxy.LanguageName(st.selected.value.code))]
          + Controller.Displayed(st) + [Message(User, st.input)]
  {
    SubmittedFromChat(st);
    var req := Controller.Submit(st).request.value;
    var posted := Post(req);
    assert posted.body.value.messages.value == req.messages;
    assert posted.body.value.language == st.selected.value.code;
    Proxy.HandleForwards(posted, apiKey, provider);
  }
}

=== FILE: http.dfy ===
/** HTTP notions shared by the widget and the proxy. */
module Http {

  /** `response.ok`: the status is in the 2xx range. */
  predicate IsOk(status: int) {
    200 <= status <= 299
  }
}

=== FILE: messages.dfy ===
/** Chat messages as both the widget and the proxy see them, and the one
    operation both apply to a transcript: dropping `system` messages. The
    widget does it when rendering (src/components/DwntwnaChat.tsx, line 211),
    the proxy before forwarding (supabase/functions/chat/index.ts, lines 54-59). */
module Messages {

  datatype Role = User | Assistant | System

  /** A transcript entry. The widget's `timestamp` is not modelled: no
      decision depends on it, and the proxy strips it. */
  datatype Message = Message(role: Role, content: string)

  predicate SystemFree(ms: seq<Message>) {
    forall i :: 0 <= i < |ms| ==> ms[i].role != System
  }

  /** `ms.filter(m => m.role !== 'system')` */
  function NonSystem(ms: seq<Message>): (r: seq<Message>)
    ensures |r| <= |ms|
    ensures SystemFree(r)
  {
    if ms == [] then []
    else
      var init := ms[..|ms| - 1];
      var m := ms[|ms| - 1];
      if m.role == System then NonSystem(init) else NonSystem(init) + [m]
  }

  /** The filter keeps only messages of its input, and every non-system
      one of them. */
  lemma {:induction false} NonSystemMembers(ms: seq<Message>)
    ensures forall m :: m in NonSystem(ms) ==> m in ms
    ensures forall i :: 0 <= i < |ms| && ms[i].role != System ==> ms[i] in NonSystem(ms)
  {
    if ms != [] {
      var init := ms[..|ms| - 1];
      NonSystemMembers(init);
      assert forall x :: x in init ==> x in ms;
      forall i | 0 <= i < |ms| && ms[i].role != System
        ensures ms[i] in NonSystem(ms)
      {
        if i < |init| {
          assert ms[i] == init[i];
        }
      }
    }
  }

  /** The positions of the non-system messages of `ms`, in increasing order:
      an independent description of what `NonSystem` keeps. */
  function KeptIndices(ms: seq<Message>): (idx: seq<nat>)
    ensures forall k :: 0 <= k < |idx| ==> idx[k] < |ms| && ms[idx[k]].role != System
    ensures forall k, l :: 0 <= k < l < |idx| ==> idx[k] < idx[l]
    ensures forall j :: 0 <= j < |ms| && ms[j].role != System ==> j in idx
  {
    if ms == [] then []
    else
      var init := KeptIndices(ms[..|ms| - 1]);
      if ms[|ms| - 1].role == System then init else init + [|ms| - 1]
  }

  /** The filter keeps exactly the non-system messages, each unchanged and in
      its original relative order: entry `k` of the result is the message at
      the `k`-th kept position. */
  lemma {:induction false} NonSystemKeepsOrder(ms: seq<Message>)
    ensures |NonSystem(ms)| == |KeptIndices(ms)|
    ensures forall k :: 0 <= k < |KeptIndices(ms)| ==> NonSystem(ms)[k] == ms[KeptIndices(ms)[k]]
  {
    if ms != [] {
      var init := ms[..|ms| - 1];
      var n, idx := NonSystem(init), KeptIndices(init);
      NonSystemKeepsOrder(init);
      forall k | 0 <= k < |KeptIndices(ms)|
        ensures NonSystem(ms)[k] == ms[KeptIndices(ms)[k]]
      {
        if k < |idx| {
          assert KeptIndices(ms)[k] == idx[k];
          assert NonSystem(ms)[k] == n[k];
          assert ms[idx[k]] == init[idx[k]];
        }
      }
    }
  }

  /** Filtering distributes over concatenation: appending to a transcript
      appends the filtered suffix to the filtered transcript. */
  lemma {:induction false} NonSystemAppend(a: seq<Message>, b: seq<Message>)
    ensures NonSystem(a + b) == NonSystem(a) + NonSystem(b)
  {
    if b != [] {
      var b' := b[..|b| - 1];
      assert (a + b)[..|a + b| - 1] == a + b';
      NonSystemAppend(a, b');
    } else {
      assert a + b == a;
    }
  }

  /** A transcript with no system message passes the filter unchanged. */
  lemma {:induction false} NonSystemOfSystemFree(ms: seq<Message>)
    requires SystemFree(ms)
    ensures NonSystem(ms) == ms
  {
    if ms != [] {
      var init := ms[..|ms| - 1];
      assert SystemFree(init) by {
        forall i | 0 <= i < |init| ensures init[i].role != System {
          assert init[i] == ms[i];
        }
      }
      NonSystemOfSystemFree(init);
      assert ms[|ms| - 1].role != System;
      assert ms == init + [ms[|ms| - 1]];
    }
  }

  /** The number of messages in `ms` that have role `role`. */
  function CountRole(ms: seq<Message>, role: Role): (n: nat)
    ensures n <= |ms|
    ensures n == 0 <==> forall i :: 0 <= i < |ms| ==> ms[i].role != role
  {
    if ms == [] then 0
    else CountRole(ms[1..], role) + (if ms[0].role == role then 1 else 0)
  }

  lemma {:induction false} CountRoleAppend(a: seq<Message>, b: seq<Message>, role: Role)
    ensures CountRole(a + b, role) == CountRole(a, role) + CountRole(b, role)
  {
    if a == [] {
      assert a + b == b;
    } else {
      assert (a + b)[1..] == a[1..] + b;
      CountRoleAppend(a[1..], b, role);
    }
  }

  /** The filter's length is the number of non-system messages. */
  lemma {:induction false} NonSystemLength(ms: seq<Message>)
    ensures |NonSystem(ms)| == |ms| - CountRole(ms, System)
  {
    if ms != [] {
      var init := ms[..|ms| - 1];
      var last := ms[|ms| - 1];
      NonSystemLength(init);
      assert ms == init + [last];
      CountRoleAppend(init, [last], System);
    }
  }
}

=== FILE: proxy.dfy ===
/** The completion proxy (supabase/functions/chat/index.ts): one stateless
    translation from the widget's request to the provider's request, and
    from the provider's outcome to the widget's response. The environment
    lookup of the API key and the provider round trip are inputs. */
module Proxy {
  import opened Wrappers
  import opened Text
  import opened Messages
  import opened Http

  /** Reply when the provider answered without usable content. */
  const Apology: string := "I apologize, but I'm having trouble responding right now. Please try again."

  /** Reply on every failure path. */
  const TechnicalDifficulty: string := "I'm sorry, I'm experiencing technical difficulties. Please try again later."

  /** The `max_tokens` field sent to the provider. */
  const MaxTokens: nat := 1000

  const DefaultLanguageName: string := "English"

  /** The language codes the prompt builder recognises. */
  const LanguageNames: map<string, string> :=
    map["en" := "English", "ar" := "Arabic", "hi" := "Hindi",
        "ur" := "Urdu", "zh" := "Chinese", "ru" := "Russian"]

  /** The fixed persona text that precedes the language instruction. */
  const Persona: string :=
    "You are Dwntwna AI Concierge, a knowledgeable and friendly travel assistant specializing in Downtown Dubai and the UAE. You help tourists and visitors with:\n\n"
    + "- Destination recommendations in Downtown Dubai (Burj Khalifa, Dubai Mall, Dubai Fountain, etc.)\n"
    + "- Budget planning and cost estimates\n"
    + "- Restaurant and dining suggestions\n"
    + "- Transportation options (Metro, taxi, car rentals)\n"
    + "- Cultural insights and local customs\n"
    + "- Weather information\n"
    + "- Shopping recommendations\n"
    + "- Event and activity suggestions\n"
    + "- Accommodation advice\n\n"

  /** The fixed closing text after the language instruction. */
  const Closing: string :=
    "\n\nBe helpful, enthusiastic, and provide practical, actionable advice. Keep responses conversational and engaging."

  /** The parsed request body. `messages` is `None` when the field is missing
      or is not an array of messages: destructuring does not notice, and the
      failure only surfaces at `messages.filter`, after the key check. */
  datatype ChatRequest = ChatRequest(messages: Option<seq<Message>>, language: string)

  /** An incoming request: its HTTP method and its body, `None` when
      `req.json()` rejects (the body is not JSON) or the JSON is `null`, so
      that destructuring it throws. */
  datatype HttpRequest = HttpRequest(verb: string, body: Option<ChatRequest>)

  /** The body posted to the provider, less the model name and temperature. */
  datatype ProviderRequest = ProviderRequest(messages: seq<Message>, maxTokens: nat)

  /** The provider's JSON, as far as `data.choices?.[0]?.message?.content`
      reads it. */
  datatype ChoiceMessage = ChoiceMessage(content: Option<string>)
  datatype Choice = Choice(message: Option<ChoiceMessage>)
  datatype ProviderJson = ProviderJson(choices: Option<seq<Choice>>)

  /** What the provider fetch delivered: a thrown transport error, or a
      status with a body. `json` is `None` when `response.json()` throws or
      the body is JSON `null`, on which reading `data.choices` throws. */
  datatype ProviderOutcome = Unreachable | ProviderResponded(status: int, json: Option<ProviderJson>)

  /** Why a request took the error path (the `error` field of the 500 body). */
  datatype Failure =
    | MalformedBody
    | MissingApiKey
    | MalformedMessages
    | ProviderStatus(status: int)
    | ProviderUnreachable
    | MalformedProviderBody

  datatype ResponseBody = NoBody | ReplyBody(reply: string) | ErrorBody(reply: string, error: Failure)

  datatype HttpResponse = HttpResponse(status: int, body: ResponseBody)

  /** The proxy's answer together with the provider call it made, if any. */
  datatype Exchange = Exchange(response: HttpResponse, call: Option<ProviderRequest>)

  /** The nested conditional on `language`: a code the table lists gets its
      name, every other code the default, English. */
  function LanguageName(code: string): (name: string)
    ensures code in LanguageNames ==> name == LanguageNames[code]
    ensures code !in LanguageNames ==> name == DefaultLanguageName
  {
    if code == "en" then "English"
    else if code == "ar" then "Arabic"
    else if code == "hi" then "Hindi"
    else if code == "ur" then "Urdu"
    else if code == "zh" then "Chinese"
    else if code == "ru" then "Russian"
    else "English"
  }

  /** The authoritative system message, carrying the language instruction. */
  function SystemPrompt(languageName: string): (m: Message)
    ensures m.role == System
    ensures IsInfix("Always respond in " + languageName + ".", m.content)
  {
    var instruction := "Always respond in " + languageName + ".";
    var c := Persona + instruction + Closing;
    assert c[|Persona|..|Persona| + |instruction|] == instruction;
    assert OccursAt(instruction, c, |Persona|);
    Message(System, c)
  }

  /** `groqMessages`: the generated system prompt, then the client's
      messages without its system messages. */
  function ProviderMessages(messages: seq<Message>, language: string): (ms: seq<Message>)
    ensures |ms| == 1 + |messages| - CountRole(messages, System)
    ensures ms[0] == SystemPrompt(LanguageName(language))
    ensures ms[1..] == NonSystem(messages)
    ensures CountRole(ms, System) == 1
  {
    var filtered := NonSystem(messages);
    NonSystemLength(messages);
    var ms := [SystemPrompt(LanguageName(language))] + filtered;
    assert ms[1..] == filtered;
    ms
  }

  /** `data.choices?.[0]?.message?.content || apology` */
  function ExtractReply(json: ProviderJson): (reply: string)
    ensures reply != ""
    ensures HasFirstContent(json) ==> reply == json.choices.value[0].message.value.content.value
    ensures !HasFirstContent(json) ==> reply == Apology
  {
    match json.choices
    case None => Apology
    case Some(choices) =>
      if |choices| == 0 then Apology
      else match choices[0].message
        case None => Apology
        case Some(message) =>
          match message.content
          case None => Apology
          case Some(content) => if content == "" then Apology else content
  }

  /** The first choice carries non-empty message content. */
  predicate HasFirstContent(json: ProviderJson) {
    && json.choices.Some? && |json.choices.value| > 0
    && json.choices.value[0].message.Some?
    && json.choices.value[0].message.value.content.Some?
    && json.choices.value[0].message.value.content.value != ""
  }

  function Fail(cause: Failure): HttpResponse {
    HttpResponse(500, ErrorBody(TechnicalDifficulty, cause))
  }

  /** Whether a non-empty API key is configured (`!groqApiKey` fails for
      both an unset and an empty variable). */
  predicate HasKey(apiKey: Option<string>) {
    apiKey.Some? && apiKey.value != ""
  }

  /** The request handler. `apiKey` is the value of the key's environment
      variable; `provider` is what the provider fetch would deliver, and is
      consulted only when the call is made. */
  function Handle(req: HttpRequest, apiKey: Option<string>, provider: ProviderOutcome): (ex: Exchange)
    // preflight: answered at once, body unread, no provider call
    ensures req.verb == "OPTIONS" ==> ex == Exchange(HttpResponse(200, NoBody), None)
    // the provider is called exactly when the body and its messages are
    // usable and a key is configured
    ensures ex.call.Some? <==>
      req.verb != "OPTIONS" && req.body.Some? && HasKey(apiKey) && req.body.value.messages.Some?
    ensures ex.call.Some? ==>
      ex.call.value ==
        ProviderRequest(ProviderMessages(req.body.value.messages.value, req.body.value.language), MaxTokens)
    // a missing key is reported before any provider call, and before the
    // messages are looked at
    ensures req.verb != "OPTIONS" && req.body.Some? && !HasKey(apiKey) ==>
      ex.call.None? && ex.response == Fail(MissingApiKey)
    ensures req.verb != "OPTIONS" && req.body.Some? && HasKey(apiKey) && req.body.value.messages.None? ==>
      ex.call.None? && ex.response == Fail(MalformedMessages)
    // success: the provider answered ok with parseable JSON
    ensures ex.response.status == 200 && req.verb != "OPTIONS" <==>
      ex.call.Some? && provider.ProviderResponded? && IsOk(provider.status) && provider.json.Some?
    ensures ex.response.status == 200 && req.verb != "OPTIONS" ==>
      ex.response.body == ReplyBody(ExtractReply(provider.json.value))
    // every other non-preflight request: 500 with the fixed reply
    ensures req.verb != "OPTIONS" && ex.response.status != 200 ==>
      ex.response.status == 500 && ex.response.body.ErrorBody? &&
      ex.response.body.reply == TechnicalDifficulty
  {
    if req.verb == "OPTIONS" then
      Exchange(HttpResponse(200, NoBody), None)
    else if req.body.None? then
      Exchange(Fail(MalformedBody), None)
    else if !HasKey(apiKey) then
      Exchange(Fail(MissingApiKey), None)
    else if req.body.value.messages.None? then
      Exchange(Fail(MalformedMessages), None)
    else
      var body := req.body.value;
      var call := ProviderRequest(ProviderMessages(body.messages.value, body.language), MaxTokens);
      var response :=
        match provider
        case Unreachable => Fail(ProviderUnreachable)
        case ProviderResponded(status, json) =>
          if !IsOk(status) then Fail(ProviderStatus(status))
          else if json.None? then Fail(MalformedProviderBody)
          else HttpResponse(200, ReplyBody(ExtractReply(json.value)));
      Exchange(response, Some(call))
  }

  /** What the provider is sent: the generated prompt followed by the
      client's non-system messages, in their order. */
  lemma HandleForwards(req: HttpRequest, apiKey: Option<string>, provider: ProviderOutcome)
    ensures var ex := Handle(req, apiKey, provider);
      ex.call.Some? ==>
        ex.call.value.messages ==
          [SystemPrompt(LanguageName(req.body.value.language))] + NonSystem(req.body.value.messages.value)
  {
    var ex := Handle(req, apiKey, provider);
    if ex.call.Some? {
      var ms := ProviderMessages(req.body.value.messages.value, req.body.value.language);
      assert ms == [ms[0]] + ms[1..];
    }
  }
}

=== FILE: session.dfy ===
/** The widget driven by its user interface: which events the rendered
    screen lets through (src/components/DwntwnaChat.tsx, lines 119-269), and
    the shape of the transcript that every sequence of them keeps. */
module Session {
  import opened Messages
  import opened Text
  import opened Controller

  datatype Event =
    | Choose(lang: Language)         // a language button on the selection screen
    | Globe                          // the globe button in the chat header
    | Type(text: string)             // the input box's onChange
    | Send                           // the form's onSubmit
    | Arrive(outcome: FetchOutcome)  // the in-flight fetch settles

  /** Whether the current screen can produce the event. The selection screen
      offers only the table's languages (lines 147-152). The chat screen
      offers the globe (196-203), the input, disabled while loading (252-256),
      and the submit button, disabled while loading or while the input trims
      to nothing (259-261). A fetch can only settle while one is in flight. */
  predicate Enabled(st: State, e: Event) {
    match e
    case Choose(lang) => st.showSelector && lang in Languages
    case Globe => !st.showSelector
    case Type(_) => !st.showSelector && !st.loading
    case Send => !st.showSelector && !st.loading && Trim(st.input) != ""
    case Arrive(_) => st.loading
  }

  /** The submit button's `disabled` test and the handler's guard agree: on
      the chat screen the form can be submitted exactly when the submit is
      accepted, so the guard never refuses a submit the screen lets through. */
  lemma SendAccepted(st: State)
    requires !st.showSelector
    ensures Enabled(st, Send) <==> Submit(st).request.Some?
  {
  }

  function Step(st: State, e: Event): State {
    match e
    case Choose(lang) => SelectLanguage(st, lang)
    case Globe => OpenSelector(st)
    case Type(text) => EditInput(st, text)
    case Send => Submit(st).state
    case Arrive(outcome) => Complete(st, outcome)
  }

  /** Feeds a sequence of events to the widget; an event the screen does not
      offer has no effect. */
  function Run(st: State, es: seq<Event>): State
    decreases |es|
  {
    if es == [] then st
    else Run(if Enabled(st, es[0]) then Step(st, es[0]) else st, es[1..])
  }

  /** The shape of the transcript. Before any language is chosen it is empty
      and idle. Afterwards it starts with the chosen language's note, holds
      no other system message, and every user turn is answered by the next
      entry unless it is the last one, in which case its request is still in
      flight. Strict user/assistant alternation is NOT promised: choosing a
      language while a request is in flight reseeds the transcript, and the
      late reply then follows the greeting. */
  predicate Coherent(st: State) {
    && (st.selected.None? ==> st.messages == [] && !st.loading && st.showSelector)
    && (st.selected.Some? ==>
          && st.selected.value in Languages
          && |st.messages| >= 2
          && st.messages[0] == LanguageNote(st.selected.value)
          && st.messages[1].role == Assistant
          && SystemFree(st.messages[1..])
          && (forall i :: 1 <= i < |st.messages| - 1 && st.messages[i].role == User ==>
                st.messages[i + 1].role == Assistant)
          && (st.messages[|st.messages| - 1].role == User ==> st.loading))
  }

  lemma StepCoherent(st: State, e: Event)
    requires Coherent(st) && Enabled(st, e)
    ensures Coherent(Step(st, e))
  {
    match e
    case Choose(lang) => ChooseCoherent(st, lang);
    case Globe => KeepShapeCoherent(st, OpenSelector(st));
    case Type(text) => KeepShapeCoherent(st, EditInput(st, text));
    case Send => SendCoherent(st);
    case Arrive(outcome) => ArriveCoherent(st, outcome);
  }

  /** A step that touches neither the transcript, the chosen language nor the
      loading flag, and leaves the selector up if no language is chosen. */
  lemma KeepShapeCoherent(st: State, st': State)
    requires Coherent(st)
    requires st'.messages == st.messages && st'.selected == st.selected && st'.loading == st.loading
    requires st.selected.None? ==> st'.showSelector
    ensures Coherent(st')
  {
  }

  lemma ChooseCoherent(st: State, lang: Language)
    requires lang in Languages
    ensures Coherent(SelectLanguage(st, lang))
  {
    var ms := SelectLanguage(st, lang).messages;
    assert ms[1..] == [ms[1]];
  }

  lemma SendCoherent(st: State)
    requires Coherent(st) && !st.showSelector
    ensures Coherent(Submit(st).state)
  {
    var out := Submit(st);
    if out.request.None? {
      assert out.state == st;
    } else {
      assert !st.loading;
      assert out.state.messages == st.messages + [Message(User, st.input)];
      assert st.messages[|st.messages| - 1].role != User;
      AppendCoherent(st, out.state, Message(User, st.input));
    }
  }

  /** Appending one non-system turn to a chosen-language transcript keeps the
      prefix facts of `Coherent`; the caller supplies the last-entry fact. */
  lemma AppendCoherent(st: State, st': State, m: Message)
    requires Coherent(st) && st.selected.Some?
    requires st'.messages == st.messages + [m] && st'.selected == st.selected
    requires m.role != System
    requires m.role == User ==> st'.loading && st.messages[|st.messages| - 1].role != User
    requires m.role != User ==> st.messages[|st.messages| - 1].role == User ==> m.role == Assistant
    ensures Coherent(st')
  {
    var ms, ms' := st.messages, st'.messages;
    assert ms'[1..] == ms[1..] + [m];
    assert ms'[0] == ms[0];
    forall i | 1 <= i < |ms'| - 1 && ms'[i].role == User
      ensures ms'[i + 1].role == Assistant
    {
      assert ms'[i] == ms[i];
      if i + 1 < |ms| {
        assert ms'[i + 1] == ms[i + 1];
      }
    }
  }

  lemma ArriveCoherent(st: State, outcome: FetchOutcome)
    requires Coherent(st) && st.loading
    ensures Coherent(Complete(st, outcome))
  {
    if st.selected.Some? {
      AppendCoherent(st, Complete(st, outcome), Message(Assistant, ReplyContent(outcome)));
    }
  }

  /** Every sequence of events from a coherent state ends in one. */
  lemma {:induction false} RunCoherent(st: State, es: seq<Event>)
    requires Coherent(st)
    ensures Coherent(Run(st, es))
    decreases |es|
  {
    if es != [] {
      var next := if Enabled(st, es[0]) then Step(st, es[0]) else st;
      if Enabled(st, es[0]) {
        StepCoherent(st, es[0]);
      }
      RunCoherent(next, es[1..]);
    }
  }

  /** Whatever the user does, the transcript keeps its shape; in particular
      the screen shows the transcript minus its first entry. */
  lemma {:induction false} SessionCoherent(es: seq<Event>)
    ensures Coherent(Run(Initial, es))
    ensures Run(Initial, es).selected.Some? ==>
      Displayed(Run(Initial, es)) == Run(Initial, es).messages[1..]
  {
    RunCoherent(Initial, es);
    var st := Run(Initial, es);
    if st.selected.Some? {
      DisplayOfCoherent(st);
    }
  }

  /** Once a language is chosen, the rendered list is the transcript without
      its leading language note. */
  lemma DisplayOfCoherent(st: State)
    requires Coherent(st) && st.selected.Some?
    ensures Displayed(st) == st.messages[1..]
  {
    assert st.messages == [st.messages[0]] + st.messages[1..];
    NonSystemAppend([st.messages[0]], st.messages[1..]);
    assert NonSystem([st.messages[0]]) == NonSystem([]);
    NonSystemOfSystemFree(st.messages[1..]);
  }

  /** At most one request is in flight: once a request is loading, no
      sequence of events short of its arrival clears the flag, so every
      submit along the way is refused and issues no second request. */
  lemma {:induction false} OneRequestInFlight(st: State, es: seq<Event>)
    requires st.loading
    requires forall i :: 0 <= i < |es| ==> !es[i].Arrive?
    ensures Run(st, es).loading
    ensures Submit(Run(st, es)).request.None?
    decreases |es|
  {
    if es != [] {
      var next := if Enabled(st, es[0]) then Step(st, es[0]) else st;
      assert next.loading;
      OneRequestInFlight(next, es[1..]);
    }
  }
}

=== FILE: text.dfy ===
/** Strings as JavaScript sees them for the one operation the chat logic
    uses on user text: `String.prototype.trim`. */
module Text {

  /** The characters `trim` removes: the ECMAScript WhiteSpace and
      LineTerminator code points. */
  predicate IsJsWhitespace(c: char) {
    || c == '\t' || c == '\n' || c == '\U{000B}' || c == '\U{000C}' || c == '\r'
    || c == ' ' || c == '\U{00A0}' || c == '\U{1680}'
    || ('\U{2000}' <= c <= '\U{200A}')
    || c == '\U{2028}' || c == '\U{2029}' || c == '\U{202F}' || c == '\U{205F}'
    || c == '\U{3000}' || c == '\U{FEFF}'
  }

  predicate AllWhitespace(s: string) {
    forall i :: 0 <= i < |s| ==> IsJsWhitespace(s[i])
  }

  /** Joining two whitespace-only strings gives a whitespace-only string. */
  lemma WhitespaceJoin(a: string, b: string)
    requires AllWhitespace(a) && AllWhitespace(b)
    ensures AllWhitespace(a + b)
  {
    forall i | 0 <= i < |a + b|
      ensures IsJsWhitespace((a + b)[i])
    {
      if i < |a| { assert (a + b)[i] == a[i]; } else { assert (a + b)[i] == b[i - |a|]; }
    }
  }

  /** `t` occurs as a contiguous piece of `s`. */
  predicate IsInfix(t: string, s: string) {
    exists p :: 0 <= p <= |s| && OccursAt(t, s, p)
  }

  predicate OccursAt(t: string, s: string, p: int) {
    0 <= p <= |s| - |t| && s[p..p + |t|] == t
  }

  /** Removes the longest whitespace prefix. */
  function TrimStart(s: string): (r: string)
    ensures |r| <= |s| && r == s[|s| - |r|..]
    ensures AllWhitespace(s[..|s| - |r|])
    ensures r == [] || !IsJsWhitespace(r[0])
  {
    if s != [] && IsJsWhitespace(s[0]) then
      var r := TrimStart(s[1..]);
      DropWhitespaceHead(s, r);
      r
    else s
  }

  /** Removes the longest whitespace suffix. */
  function TrimEnd(s: string): (r: string)
    ensures |r| <= |s| && r == s[..|r|]
    ensures AllWhitespace(s[|r|..])
    ensures r == [] || !IsJsWhitespace(r[|r| - 1])
  {
    if s != [] && IsJsWhitespace(s[|s| - 1]) then
      var r := TrimEnd(s[..|s| - 1]);
      DropWhitespaceLast(s, r);
      r
    else s
  }

  /** `r` sits at offset `p` of `s` with only whitespace before and after it. */
  predicate TrimmedAt(r: string, s: string, p: int) {
    && 0 <= p <= |s| - |r|
    && s[p..p + |r|] == r
    && AllWhitespace(s[..p])
    && AllWhitespace(s[p + |r|..])
  }

  /** `s.trim()`: the result is `s` less a whitespace prefix and a whitespace
      suffix, has no whitespace at either end, and is empty exactly when `s`
      is whitespace only. */
  function Trim(s: string): (r: string)
    ensures exists p :: 0 <= p <= |s| && TrimmedAt(r, s, p)
    ensures r == [] <==> AllWhitespace(s)
    ensures r != [] ==> !IsJsWhitespace(r[0]) && !IsJsWhitespace(r[|r| - 1])
  {
    TrimLocated(s);
    TrimEmpty(s);
    TrimEnd(TrimStart(s))
  }

  /** `TrimStart` removes everything exactly when everything is whitespace. */
  lemma TrimStartEmpty(s: string)
    ensures TrimStart(s) == [] <==> AllWhitespace(s)
  {
    var r := TrimStart(s);
    if r == [] {
      assert s[..|s| - |r|] == s;
    } else {
      assert r[0] == s[|s| - |r|];
    }
  }

  /** `TrimEnd` removes everything exactly when everything is whitespace. */
  lemma TrimEndEmpty(s: string)
    ensures TrimEnd(s) == [] <==> AllWhitespace(s)
  {
    var r := TrimEnd(s);
    if r == [] {
      assert s[|r|..] == s;
    } else {
      assert r[|r| - 1] == s[|r| - 1];
    }
  }

  /** Both ends trimmed: empty exactly when `s` is whitespace only. */
  lemma TrimEmpty(s: string)
    ensures TrimEnd(TrimStart(s)) == [] <==> AllWhitespace(s)
  {
    var t := TrimStart(s);
    TrimStartEmpty(s);
    TrimEndEmpty(t);
    if t != [] {
      assert !IsJsWhitespace(t[0]);
    }
  }

  /** The recursive step of `TrimStart`: a suffix of `s[1..]` with only
      whitespace before it is a suffix of `s` with only whitespace before it,
      when `s[0]` is whitespace. */
  lemma DropWhitespaceHead(s: string, r: string)
    requires s != [] && IsJsWhitespace(s[0])
    requires |r| <= |s| - 1 && r == s[1..][|s| - 1 - |r|..]
    requires AllWhitespace(s[1..][..|s| - 1 - |r|])
    ensures r == s[|s| - |r|..]
    ensures AllWhitespace(s[..|s| - |r|])
  {
    assert s[1..][|s| - 1 - |r|..] == s[|s| - |r|..];
    assert s[..|s| - |r|] == [s[0]] + s[1..][..|s| - 1 - |r|];
    WhitespaceJoin([s[0]], s[1..][..|s| - 1 - |r|]);
  }

  /** The recursive step of `TrimEnd`, mirrored. */
  lemma DropWhitespaceLast(s: string, r: string)
    requires s != [] && IsJsWhitespace(s[|s| - 1])
    requires |r| <= |s| - 1 && r == s[..|s| - 1][..|r|]
    requires AllWhitespace(s[..|s| - 1][|r|..])
    ensures r == s[..|r|]
    ensures AllWhitespace(s[|r|..])
  {
    assert s[..|s| - 1][..|r|] == s[..|r|];
    assert s[|r|..] == s[..|s| - 1][|r|..] + [s[|s| - 1]];
    WhitespaceJoin(s[..|s| - 1][|r|..], [s[|s| - 1]]);
  }

  /** Where the trimmed text sits in the original. */
  lemma TrimLocated(s: string)
    ensures TrimmedAt(TrimEnd(TrimStart(s)), s, |s| - |TrimStart(s)|)
  {
    var t := TrimStart(s);
    TrimmedWithin(TrimEnd(t), t, s, |s| - |t|);
  }

  /** A whitespace-free-ended prefix `r` of the suffix `t == s[p..]` sits at
      offset `p` of `s`. */
  lemma TrimmedWithin(r: string, t: string, s: string, p: int)
    requires 0 <= p <= |s| && t == s[p..] && AllWhitespace(s[..p])
    requires |r| <= |t| && r == t[..|r|] && AllWhitespace(t[|r|..])
    ensures TrimmedAt(r, s, p)
  {
    assert s[p..p + |r|] == t[..|r|];
    assert s[p + |r|..] == t[|r|..];
  }
}

=== FILE: wrappers.dfy ===
/** A value that may be absent: JavaScript's `undefined`/`null` and missing
    optional fields are modelled as `None`. */
module Wrappers {

  datatype Option<+T> = None | Some(value: T)
}
